=== FILE: README.md ===
# print: a model of the header's stringifier

The header `print.hpp` turns a value into text. It uses static type inspection to choose a strategy:

- `std::string` is returned unchanged.
- List-like containers become `[e1, e2, ...]`.
- Map-like containers become `{{k1: v1}, {k2: v2}, ...}`.
- A type with a non-template `to_string` found by argument-dependent lookup (declared in one of the type's associated namespaces, such as `std::string to_string(const Id&)` next to `app::Id`) gets that function's text. One that takes the type itself wins over every header template, including the one calling a `to_string` member.
- Non-pointer types that are neither list- nor map-like, with a `to_string` member and no such free function, have the member called.
- Everything else gets the fixed message `Class has no const 'to_string' method defined`. This includes two cases one might expect to be formatted:
  - a container that also has a `to_string` member and no such free function, because the call is then ambiguous;
  - a pointer to a class with a `to_string` member, because the pointer overload's condition never holds as written (see "## Findings"). With the corrected condition, that pointer is dereferenced once and the target's `to_string` is called.

The model has five modules:

- `Traits` gives each compile-time probe of the header an explicit flag in a capability record (`Caps`). It also defines the two classifications `is_map_v` and `is_list_container_v` (`IsMap`, `IsListContainer`).
- `Joins` is the generic join of rendered pieces with a separator. It proves the join's length and where each piece and each separator lands.
- `Containers` holds the two container formatters. Each one comes twice:
  - as a method that follows the header's loop step by step: first element, then `", "` plus each further element;
  - as a reference function, the bracketed join.

  The method is proved equal to the reference function.
- `Dispatch` holds the four `to_string` templates and the three `str` templates. Each template's enabling condition is a predicate. Overload resolution of the probe `to_string(T())` is a function (`Resolve`). The choice of `str` template is a function (`SelectStr`), and the text produced is `Str`.
- `Wrappers` holds `Option`.

Element, key and mapped-value text is what the caller's stream insertion operator writes. The model takes it as opaque strings inside `Value`, in iteration order. Nothing is formatted recursively: each element, key and mapped value goes through `operator<<`. An element that is itself a standard container other than `std::string` has no `operator<<`, so such a nested container does not compile.

## Model

| member | source | states |
|---|---|---|
| `Joins.JoinSnoc` | print.hpp:53-56 | one more loop step on a non-empty output appends exactly `", "` and the next element |
| `Joins.JoinLength` | print.hpp:48-56 | a join of n parts is as long as the parts together plus max(n-1, 0) separators |
| `Joins.JoinPartAt` | print.hpp:48-56 | part i starts at its offset and is followed by one separator unless it is the last; the last part ends the join, so the output is the parts in order with n-1 separators and nothing else |
| `Traits.ListAndMapExclusive` | print.hpp:27-36 | no type is classified both as a list container and as a map |
| `Traits.StdStringIsListContainer` | print.hpp:32-36 | `std::string` passes the list-container test (it has `cbegin`/`cend`, no key or mapped type) |
| `Containers.ListText` | print.hpp:39-59 | list text has length 2 + sum of element lengths + 2*max(n-1, 0), starts with `[`, ends with `]`, and is exactly `[]` for an empty container |
| `Containers.EntryTextsLength` | print.hpp:73-78 | each `{key: value}` entry adds four characters to its key and value |
| `Containers.MapText` | print.hpp:61-82 | map text has length 2 + sum of key and value lengths + 4n + 2*max(n-1, 0), starts with `{`, ends with `}`, and is exactly `{}` for an empty container |
| `Containers.ListToString` | print.hpp:43-58 | the header's first-element-then-loop construction produces `[` + elements joined by `", "` + `]` |
| `Containers.MapToString` | print.hpp:66-81 | the header's first-entry-then-loop construction produces `{` + entries `{k: v}` joined by `", "` + `}` |
| `Containers.ListElementAt` | print.hpp:48-57 | element i appears verbatim at its offset in iteration order, followed by `", "` unless it is last; the last is followed directly by `]` |
| `Containers.MapEntryAt` | print.hpp:71-80 | entry i appears as `{key: value}` at its offset in native iteration order (no re-sorting), followed by `", "` unless it is last; the last is followed directly by the closing `}` |
| `Containers.ListTextNotInjective` | print.hpp:44-57 | for all element texts a, b: the single element `a, b` formats exactly like the two elements a and b, and one empty element formats exactly like an empty container |
| `Dispatch.Resolve` | print.hpp:117-131 | the call `to_string(value)` resolves to an external non-template to_string if one exists; else to the single enabled header template; it fails when no template or two templates are enabled |
| `Dispatch.SelectStr` | print.hpp:102-141 | the three `str` conditions partition all types: the chosen overload's condition holds and no other's does |
| `Dispatch.StrategyOf` | print.hpp:102-141 | identity exactly for `std::string`; the external to_string exactly when one exists; a header template only when it is the one enabled template; the sentinel exactly when no template or two templates are enabled (corrected pointer condition) |
| `Dispatch.Str` | print.hpp:102-141 | `str` on a `std::string` returns the value unchanged, and a type with an external to_string gets that function's text (corrected pointer condition) |
| `Dispatch.MethodOverloadsExclusive` | print.hpp:84-100 | the pointer and non-pointer method overloads are never enabled together |
| `Dispatch.ContainerOverloadsExclusive` | print.hpp:39-63 | the list and map overloads are never enabled together |
| `Dispatch.AmbiguousExactly` | print.hpp:39-100 | the call is ambiguous exactly for a container type that also has a `to_string` member and has no external to_string |
| `Dispatch.StrOfStdString` | print.hpp:102-107 | `std::string` reaches the identity overload even though the list overload is enabled for it |
| `Dispatch.StrOfListContainer` | print.hpp:124-132 | a list container with no to_string of its own is formatted by the list formatter |
| `Dispatch.StrOfMap` | print.hpp:124-132 | a map container with no to_string of its own is formatted by the map formatter |
| `Dispatch.StrOfDescribed` | print.hpp:93-100 | a non-pointer, non-container type with a `to_string` member gets `value.to_string()` |
| `Dispatch.StrOfPointerToDescribed` | print.hpp:84-91 | a non-null pointer to a type with a `to_string` member gets the target's `to_string()`, one dereference (corrected condition) |
| `Dispatch.StrOfPointerToPointer` | print.hpp:84-91 | a pointer to a pointer is not walked: it gets the sentinel |
| `Dispatch.StrOfUnsupported` | print.hpp:134-141 | a non-string type with no container shape and no to_string yields exactly `Class has no const 'to_string' method defined` |
| `Dispatch.StrOfFundamental` | print.hpp:117-141 | a fundamental type such as `int` gets exactly the sentinel: no header template is enabled and no to_string is found for it |
| `Dispatch.StrOfExternal` | print.hpp:117-131 | a type with a to_string found by argument-dependent lookup, one that takes the type itself, gets that function's text, whatever header templates are enabled for it, a `to_string` member included |
| `Dispatch.StrOfStdTrueType` | print.hpp:117-131 | `std::true_type`, a type in namespace `std` convertible to an arithmetic type, gets the text of `std::to_string`, not the sentinel |
| `Dispatch.StrOfAmbiguous` | print.hpp:134-141 | a container with a `to_string` member makes the probe fail, so it yields the sentinel |
| `Dispatch.PointerOverloadDeadAsWritten` | print.hpp:84-88 | as written, the pointer overload's condition holds for no type |
| `Dispatch.StrAsWritten` | print.hpp:84-141 | `str` as the header writes it returns a `std::string` unchanged and gives a type with an external to_string that function's text |
| `Dispatch.StrAsWrittenAgrees` | print.hpp:84-141 | as written, for every well-formed type: the pointer overload is never used; a pointer to a class with a `to_string` member and no external to_string gets the sentinel; every other type gets the same strategy and the same text as with the corrected condition |
| `Dispatch.ResolveAgrees` | print.hpp:117-131 | resolution depends only on which templates are enabled: two conditions that hold for the same overloads resolve alike |
| `Dispatch.WidgetPointerAsWritten` | print.hpp:84-91 | for a pointer to a class whose only capability is `to_string`, the written header answers with the sentinel; the corrected one answers with the target's text |

## Findings

| source | as written | input that shows it | evidently intended | confidence | as-written member | corrected member |
|---|---|---|---|---|---|---|
| print.hpp:84-91 | the pointer overload is enabled by `&T::to_string` on the pointer type `T` itself; a qualified name on a pointer type is a substitution failure, so the condition never holds | `const Widget*` where `Widget` has `std::string to_string() const` and nothing else: `str` returns the sentinel | probe the pointed-to type (`&std::remove_pointer_t<T>::to_string`) so that `value->to_string()` is called | high, not executed | `Dispatch.EnabledAsWritten`, `Dispatch.PointerOverloadDeadAsWritten`, `Dispatch.StrAsWrittenAgrees`, `Dispatch.WidgetPointerAsWritten` | `Dispatch.Enabled`, `Dispatch.StrOfPointerToDescribed` |

The rest of the model (`ResolveFor`, `StrategyOf`, `Str`) uses the corrected `Enabled`. `StrAsWritten` keeps the condition as written; `StrAsWrittenAgrees` shows it differs from `Str` only on pointers to classes with a `to_string` member.

## Left out

- The detection machinery (`is_detected_v`, `enable_if_t`, member-pointer probes) is replaced by the explicit flags of `Caps`. `WellFormed` keeps only the language rules the model relies on: a pointer type has no members, and `std::string` has the capabilities of `StdString`.
- Name lookup is not modelled in general. Whether a free `to_string` outside the header is found is the input flag `hasExternalToString`. The `using namespace std` directives make std names visible only as if declared at global scope, and ordinary lookup from the probe and from `str` stops at the header's own `to_string` templates, so it never reaches `std::to_string`. Argument-dependent lookup does reach it for a type whose associated namespaces include `std`. For such a type convertible to an arithmetic type, such as `std::true_type`, one overload of `std::to_string` is viable and the flag is true (`Traits.StdTrueType`, `Dispatch.StrOfStdTrueType`). For fundamental types such as `int` there is no associated namespace and the flag is false (`Traits.Fundamental`, `Dispatch.StrOfFundamental`).
- Dispatch.Resolve: an external `to_string` always wins. That holds when it takes the value's type, because a non-template beats an equally good template. One that takes the value only through a conversion, as `std::to_string(int)` does for `std::true_type`, loses to an enabled header template, which is an exact match; the model still picks it. For `std::true_type` no header template is enabled, so nothing competes.
- The probe's use of `T()` is not modelled: a type that is not default-constructible would fail the probe.
- A class with several overloaded `to_string` members, which makes `&T::to_string` ambiguous, is not modelled.
- How `operator<<` renders elements, keys and values (numbers, floats) is not modelled. That text is an input.
- Recursive formatting of nested containers is left out because the header does not do it.
- Pointer addresses, `nullptr` text and fixed-size arrays do not appear in this header.
- Null dereference: `Str` requires a target value whenever the pointer overload is chosen. In the header, dereferencing a null pointer there is undefined behaviour.
- A type with `key_type` and `mapped_type` is classified as a map whether or not it has `cbegin`/`cend`, as in the header. The map formatter's body calls `std::cbegin`/`std::cend`, which need const `begin()`/`end()` members. A map-classified type without them does not compile; the model formats the entries it is given instead.
- Containers.ListText: assumes every insertion into the `std::stringstream` leaves the stream good. In the header, a failed insertion leaves the stream failed, and every later `<<` writes nothing, including the closing `]`. For example, a null `const char*` element sets badbit in common libraries, and the output stops at `[`. The same holds for `Containers.ListToString`.
- Containers.MapText: makes the same assumption about the stream; a failed insertion of a key or value drops the rest of the text, including the closing `}`. The same holds for `Containers.MapToString`.
- Dispatch.StrOfListContainer: the list formatter calls `cbegin(list)`/`cend(list)` unqualified, with no `using namespace std`. They are found only by argument-dependent lookup, so a list-shaped class outside namespace `std` without its own free `cbegin`/`cend` does not compile. The model gives it the list text.
- Dispatch.StrOfDescribed: `&T::to_string` also detects a non-const member function or a data member named `to_string`, but the formatter calls `value.to_string()` on a `const T&`. A non-const member function, or a data member that cannot be called on a const object, does not compile; the model gives it `ownToString`. A data member callable on a const object, such as a function pointer or a `std::function<std::string()>`, compiles and its result is `ownToString`, as modelled.

=== FILE: containers.dfy ===
/** The two container formatters of the header. Each element (and each key
    and mapped value) arrives as the text its stream insertion operator
    writes; the formatters only add brackets and separators around it. */
module Containers {
  import opened Joins

  /** Written between consecutive elements and between consecutive entries. */
  const Separator: string := ", "

  /** Reference text of a list-like container: its elements, in iteration
      order, joined by ", " inside square brackets. */
  function ListText(elements: seq<string>): (r: string)
    ensures |r| == 2 + TotalLength(elements) + 2 * SeparatorCount(|elements|)
    ensures r[0] == '[' && r[|r| - 1] == ']'
    ensures |elements| == 0 ==> r == "[]"
  {
    JoinLength(elements, Separator);
    "[" + Join(elements, Separator) + "]"
  }

  /** Text of one map entry: `{key: value}`. */
  function EntryText(entry: (string, string)): string
  {
    "{" + entry.0 + ": " + entry.1 + "}"
  }

  function EntryTexts(entries: seq<(string, string)>): seq<string>
  {
    seq(|entries|, i requires 0 <= i < |entries| => EntryText(entries[i]))
  }

  /** Sum of the lengths of all keys and mapped values. */
  function KeyValueLength(entries: seq<(string, string)>): nat
  {
    if |entries| == 0 then 0
    else KeyValueLength(entries[..|entries| - 1]) + |entries[|entries| - 1].0| + |entries[|entries| - 1].1|
  }

  /** Each entry text adds four characters of its own to its key and value. */
  lemma {:induction false} EntryTextsLength(entries: seq<(string, string)>)
    ensures TotalLength(EntryTexts(entries)) == KeyValueLength(entries) + 4 * |entries|
    decreases |entries|
  {
    if |entries| > 0 {
      var n := |entries|;
      assert EntryTexts(entries)[..n - 1] == EntryTexts(entries[..n - 1]);
      EntryTextsLength(entries[..n - 1]);
    }
  }

  /** Reference text of a map-like container: its entries, in native
      iteration order and never re-sorted, each as `{key: value}`, joined by
      ", " inside braces. */
  function MapText(entries: seq<(string, string)>): (r: string)
    ensures |r| == 2 + KeyValueLength(entries) + 4 * |entries| + 2 * SeparatorCount(|entries|)
    ensures r[0] == '{' && r[|r| - 1] == '}'
    ensures |entries| == 0 ==> r == "{}"
  {
    JoinLength(EntryTexts(entries), Separator);
    EntryTextsLength(entries);
    "{" + Join(EntryTexts(entries), Separator) + "}"
  }

  /** to_string for list-like containers, step by step as the header does
      it: "[", the first element if there is one, then ", " and each further
      element, then "]". */
  method ListToString(elements: seq<string>) returns (r: string)
    ensures r == ListText(elements)
  {
    r := "[";
    var i := 0;
    if i != |elements| {
      r := r + elements[i];
      i := i + 1;
    }
    while i != |elements|
      invariant 0 <= i <= |elements|
      invariant |elements| > 0 ==> i >= 1
      invariant r == "[" + Join(elements[..i], Separator)
      decreases |elements| - i
    {
      assert elements[..i + 1] == elements[..i] + [elements[i]];
      JoinSnoc(elements[..i], elements[i], Separator);
      r := r + ", " + elements[i];
      i := i + 1;
    }
    assert elements[..i] == elements;
    r := r + "]";
  }

  /** to_string for map-like containers, step by step as the header does it:
      "{", the first entry as `{key: value}` if there is one, then
      `, {key: value}` for each further entry, then "}". */
  method MapToString(entries: seq<(string, string)>) returns (r: string)
    ensures r == MapText(entries)
  {
    r := "{";
    var i := 0;
    if i != |entries| {
      r := r + "{" + entries[i].0 + ": " + entries[i].1 + "}";
      i := i + 1;
    }
    while i != |entries|
      invariant 0 <= i <= |entries|
      invariant |entries| > 0 ==> i >= 1
      invariant r == "{" + Join(EntryTexts(entries[..i]), Separator)
      decreases |entries| - i
    {
      assert EntryTexts(entries[..i + 1]) == EntryTexts(entries[..i]) + [EntryText(entries[i])];
      JoinSnoc(EntryTexts(entries[..i]), EntryText(entries[i]), Separator);
      r := r + ", {" + entries[i].0 + ": " + entries[i].1 + "}";
      i := i + 1;
    }
    assert entries[..i] == entries;
    r := r + "}";
  }

  /** Where element i sits in the list text: the elements appear in
      iteration order, one ", " between each consecutive pair, and the last
      one is followed directly by the closing bracket. */
  lemma ListElementAt(elements: seq<string>, i: nat)
    requires i < |elements|
    ensures var o := 1 + Offset(elements, Separator, i);
            && o + |elements[i]| < |ListText(elements)|
            && ListText(elements)[o..o + |elements[i]|] == elements[i]
    ensures var e := 1 + Offset(elements, Separator, i) + |elements[i]|;
            i + 1 < |elements| ==> e + 2 < |ListText(elements)| && ListText(elements)[e..e + 2] == ", "
    ensures i + 1 == |elements| ==>
              1 + Offset(elements, Separator, i) + |elements[i]| == |ListText(elements)| - 1
  {
    JoinPartAt(elements, Separator, i);
    var j := Join(elements, Separator);
    var o := Offset(elements, Separator, i);
    var e := o + |elements[i]|;
    assert ListText(elements)[1 + o..1 + e] == j[o..e];
    if i + 1 < |elements| {
      assert ListText(elements)[1 + e..1 + e + 2] == j[e..e + 2];
    }
  }

  /** Where entry i sits in the map text: entry i is `{key: value}` of the
      i-th entry in iteration order, one ", " between each consecutive pair,
      and the last one is followed directly by the closing brace. */
  lemma MapEntryAt(entries: seq<(string, string)>, i: nat)
    requires i < |entries|
    ensures var o := 1 + Offset(EntryTexts(entries), Separator, i);
            && o + |EntryText(entries[i])| < |MapText(entries)|
            && MapText(entries)[o..o + |EntryText(entries[i])|] == "{" + entries[i].0 + ": " + entries[i].1 + "}"
    ensures var e := 1 + Offset(EntryTexts(entries), Separator, i) + |EntryText(entries[i])|;
            i + 1 < |entries| ==> e + 2 < |MapText(entries)| && MapText(entries)[e..e + 2] == ", "
    ensures i + 1 == |entries| ==>
              1 + Offset(EntryTexts(entries), Separator, i) + |EntryText(entries[i])| == |MapText(entries)| - 1
  {
    var ts := EntryTexts(entries);
    JoinPartAt(ts, Separator, i);
    var j := Join(ts, Separator);
    var o := Offset(ts, Separator, i);
    var e := o + |ts[i]|;
    assert MapText(entries)[1 + o..1 + e] == j[o..e];
    if i + 1 < |entries| {
      assert MapText(entries)[1 + e..1 + e + 2] == j[e..e + 2];
    }
  }

  /** The list text does not determine the elements: an element whose text
      contains ", " formats like the two elements on either side of it, and
      one empty element formats like no element at all. */
  lemma ListTextNotInjective(a: string, b: string)
    ensures [a + Separator + b] != [a, b] && ListText([a + Separator + b]) == ListText([a, b])
    ensures [""] != [] && ListText([""]) == ListText([])
  {
    assert [a, b][1..] == [b];
    assert Join([a, b], Separator) == a + Separator + b;
    assert Join([a + Separator + b], Separator) == a + Separator + b;
  }
}

=== FILE: dispatch.dfy ===
/** Which formatter a value reaches. The header decides it by overload
    resolution: four to_string templates, each switched on by a condition on
    the type, and three str templates, keyed on whether the type is
    std::string and on whether the call `to_string(T())` is well-formed. Here
    those conditions are predicates on a capability record and the choice is
    an explicit function. */
module Dispatch {
  import opened Wrappers
  import opened Traits
  import opened Containers

  /** The four to_string templates of the header. */
  datatype Overload = ListJoin | MapJoin | MethodOnPointee | MethodOnValue

  const Overloads: seq<Overload> := [ListJoin, MapJoin, MethodOnPointee, MethodOnValue]

  /** Every overload appears in Overloads exactly once. */
  lemma OverloadsListed(o: Overload)
    ensures o in Overloads
  {
  }

  predicate Distinct(s: seq<Overload>)
  {
    forall i, j :: 0 <= i < j < |s| ==> s[i] != s[j]
  }

  /** The enabling conditions as the header writes them. The pointer
      overload asks for `&T::to_string` on the pointer type T itself. */
  predicate EnabledAsWritten(o: Overload, c: Caps)
  {
    match o
    case ListJoin => IsListContainer(c)
    case MapJoin => IsMap(c)
    case MethodOnPointee => c.hasToStringMethod && IsPointer(c)
    case MethodOnValue => c.hasToStringMethod && !IsPointer(c)
  }

  /** The enabling conditions with the pointer overload probing the type
      pointed to, as its body `value->to_string()` needs; the other three are
      unchanged. */
  predicate Enabled(o: Overload, c: Caps)
  {
    match o
    case MethodOnPointee => IsPointer(c) && c.pointee.value.hasToStringMethod
    case _ => EnabledAsWritten(o, c)
  }

  /** The members of `os` that satisfy `p`, in order. */
  function Filter(os: seq<Overload>, p: Overload -> bool): (r: seq<Overload>)
    ensures forall o :: o in r <==> o in os && p(o)
    ensures Distinct(os) ==> Distinct(r)
    ensures |r| <= |os|
  {
    if |os| == 0 then []
    else
      var rest := Filter(os[1..], p);
      if p(os[0]) then
        assert os[0] !in os[1..] ==> os[0] !in rest;
        [os[0]] + rest
      else rest
  }

  /** Outcome of resolving the unqualified call `to_string(value)`. */
  datatype Resolution = Chosen(o: Overload) | ChosenExternal | NoViable | Ambiguous

  /** The probe `to_string(T())` is well-formed exactly when the call resolves. */
  predicate Detected(r: Resolution)
  {
    r.Chosen? || r.ChosenExternal?
  }

  /** Exactly one overload satisfies `p`, and it is `o`. */
  ghost predicate OnlyOne(o: Overload, p: Overload -> bool)
  {
    p(o) && forall o' :: p(o') ==> o' == o
  }

  /** Exactly one of the header's to_string templates is enabled for c, and it is `o`. */
  ghost predicate OnlyEnabled(o: Overload, c: Caps)
  {
    OnlyOne(o, o' => Enabled(o', c))
  }

  ghost predicate TwoDistinct(p: Overload -> bool)
  {
    exists a, b :: a != b && p(a) && p(b)
  }

  /** Overload resolution of `to_string(value)` when the header's templates
      enabled for the type are those satisfying `p`. A non-template
      to_string outside the header that accepts the type wins the tie-break
      against the templates; among the templates, all taking `const T&`,
      none is more specialised than another, so two enabled at once make the
      call ambiguous, which inside the probe is a substitution failure. */
  function Resolve(external: bool, p: Overload -> bool): (r: Resolution)
    ensures r == ChosenExternal <==> external
    ensures r.Chosen? ==> !external && OnlyOne(r.o, p)
    ensures !external && (exists o :: OnlyOne(o, p)) ==> r.Chosen?
    ensures r == NoViable <==> !external && forall o :: !p(o)
    ensures r == Ambiguous <==> !external && TwoDistinct(p)
  {
    var viable := Filter(Overloads, p);
    assert Distinct(Overloads);
    if external then ChosenExternal
    else if |viable| == 0 then
      assert forall o :: p(o) ==> o in viable by {
        forall o | p(o) ensures o in viable { OverloadsListed(o); }
      }
      NoViable
    else if |viable| == 1 then
      assert forall o :: p(o) ==> o == viable[0] by {
        forall o | p(o) ensures o == viable[0] { OverloadsListed(o); assert o in viable; }
      }
      assert !TwoDistinct(p);
      Chosen(viable[0])
    else
      assert viable[0] != viable[1] && p(viable[0]) && p(viable[1]);
      Ambiguous
  }

  /** How the header resolves `to_string(value)` for a type. */
  function ResolveFor(c: Caps): Resolution
  {
    Resolve(c.hasExternalToString, o => Enabled(o, c))
  }

  /** The same, with the pointer overload's condition as the header writes it. */
  function ResolveForAsWritten(c: Caps): Resolution
  {
    Resolve(c.hasExternalToString, o => EnabledAsWritten(o, c))
  }

  /** The three str templates of the header. */
  datatype StrOverload = StrIdentity | StrToString | StrSentinel

  /** Their enabling conditions, given whether the to_string probe succeeds. */
  predicate StrEnabled(s: StrOverload, c: Caps, detected: bool)
  {
    match s
    case StrIdentity => c.isStdString
    case StrToString => !c.isStdString && detected
    case StrSentinel => !c.isStdString && !detected
  }

  /** The str template overload resolution picks: the three conditions
      partition all types, so exactly one is enabled. */
  function SelectStr(c: Caps, detected: bool): (s: StrOverload)
    ensures StrEnabled(s, c, detected)
    ensures forall s' :: StrEnabled(s', c, detected) ==> s' == s
  {
    if c.isStdString then StrIdentity
    else if detected then StrToString
    else StrSentinel
  }

  /** The formatter a value ends up in. */
  datatype Strategy = Identity | Format(o: Overload) | External | Sentinel

  function StrategyWith(c: Caps, probe: Resolution): Strategy
  {
    match SelectStr(c, Detected(probe))
    case StrIdentity => Identity
    case StrToString => if probe.Chosen? then Format(probe.o) else External
    case StrSentinel => Sentinel
  }

  /** The strategy str uses for a type: identity for std::string, else the
      to_string the call resolves to, else the sentinel. */
  function StrategyOf(c: Caps): (st: Strategy)
    ensures st == Identity <==> c.isStdString
    ensures st == External <==> !c.isStdString && c.hasExternalToString
    ensures st.Format? ==> !c.isStdString && !c.hasExternalToString && OnlyEnabled(st.o, c)
    ensures !c.isStdString && !c.hasExternalToString && (exists o :: OnlyEnabled(o, c)) ==> st.Format?
    ensures st == Sentinel <==>
              && !c.isStdString && !c.hasExternalToString
              && ((forall o :: !Enabled(o, c)) || TwoDistinct(o => Enabled(o, c)))
  {
    StrategyWith(c, ResolveFor(c))
  }

  /** What a value of the type shows to the header: each field is the text
      some code outside the header produces for it. */
  datatype Value = Value(
    text: string,                     // the value itself, when T is std::string
    elements: seq<string>,            // stream insertion of each element, cbegin to cend
    entries: seq<(string, string)>,   // stream insertion of first and second of each entry
    ownToString: string,              // value.to_string()
    externalToString: string,         // the external to_string(value)
    target: Option<Value>)            // *value, when the value is a non-null pointer

  /** Returned by str for a type with no usable to_string. */
  const NoToStringMessage: string := "Class has no const 'to_string' method defined"

  /** The text a strategy produces for a value. The pointer overload
      dereferences once and calls the target's own to_string. */
  function Render(st: Strategy, v: Value): string
    requires st == Format(MethodOnPointee) ==> v.target.Some?
  {
    match st
    case Identity => v.text
    case Format(ListJoin) => ListText(v.elements)
    case Format(MapJoin) => MapText(v.entries)
    case Format(MethodOnPointee) => v.target.value.ownToString
    case Format(MethodOnValue) => v.ownToString
    case External => v.externalToString
    case Sentinel => NoToStringMessage
  }

  /** str(value) for a value of a type with capabilities c. A pointer that
      is dereferenced must not be null. */
  function Str(c: Caps, v: Value): (r: string)
    requires StrategyOf(c) == Format(MethodOnPointee) ==> v.target.Some?
    ensures c.isStdString ==> r == v.text
    ensures !c.isStdString && c.hasExternalToString ==> r == v.externalToString
  {
    Render(StrategyOf(c), v)
  }

  /** str(value) with the pointer overload's condition as the header writes it. */
  function StrAsWritten(c: Caps, v: Value): (r: string)
    requires StrategyWith(c, ResolveForAsWritten(c)) == Format(MethodOnPointee) ==> v.target.Some?
    ensures c.isStdString ==> r == v.text
    ensures !c.isStdString && c.hasExternalToString ==> r == v.externalToString
  {
    Render(StrategyWith(c, ResolveForAsWritten(c)), v)
  }

  /** The header as written never dereferences: a pointer to a class with a
      to_string member gets the sentinel unless an external to_string takes
      it, and every other type is treated exactly as with the corrected
      pointer condition. */
  lemma StrAsWrittenAgrees(c: Caps, v: Value)
    requires WellFormed(c)
    ensures StrategyWith(c, ResolveForAsWritten(c)) != Format(MethodOnPointee)
    ensures IsPointer(c) && c.pointee.value.hasToStringMethod && !c.hasExternalToString ==>
              StrAsWritten(c, v) == NoToStringMessage
    ensures !(IsPointer(c) && c.pointee.value.hasToStringMethod) ==>
              StrategyWith(c, ResolveForAsWritten(c)) == StrategyOf(c)
    ensures !(IsPointer(c) && c.pointee.value.hasToStringMethod) ==>
              StrAsWritten(c, v) == Str(c, v)
  {
    var rq := ResolveForAsWritten(c);
    assert rq.Chosen? ==> EnabledAsWritten(rq.o, c);
    if IsPointer(c) {
      assert forall o :: !EnabledAsWritten(o, c);
      assert rq == NoViable || rq == ChosenExternal;
    } else {
      ResolveAgrees(c.hasExternalToString, o => Enabled(o, c), o => EnabledAsWritten(o, c));
    }
  }

  /** Resolution depends only on which templates are enabled. */
  lemma ResolveAgrees(external: bool, p: Overload -> bool, q: Overload -> bool)
    requires forall o :: p(o) == q(o)
    ensures Resolve(external, p) == Resolve(external, q)
  {
    var rp, rq := Resolve(external, p), Resolve(external, q);
    if !external && !(forall o :: !p(o)) && !TwoDistinct(p) {
      assert rp.Chosen? && OnlyOne(rp.o, p);
      assert OnlyOne(rp.o, q);
      assert !TwoDistinct(q);
      assert rq.Chosen? && OnlyOne(rq.o, q);
    }
  }

  // ---------------------------------------------------------------------
  // Properties of the overload conditions

  /** The two method overloads have complementary pointer conditions. */
  lemma MethodOverloadsExclusive(c: Caps)
    ensures !(EnabledAsWritten(MethodOnPointee, c) && EnabledAsWritten(MethodOnValue, c))
    ensures !(Enabled(MethodOnPointee, c) && Enabled(MethodOnValue, c))
  {
  }

  /** The list and map overloads are never enabled together. */
  lemma ContainerOverloadsExclusive(c: Caps)
    ensures !(Enabled(ListJoin, c) && Enabled(MapJoin, c))
  {
  }

  /** The call `to_string(value)` is ambiguous exactly for a container type
      that also has a to_string member (and no external to_string). */
  lemma AmbiguousExactly(c: Caps)
    requires WellFormed(c)
    ensures ResolveFor(c) == Ambiguous <==>
              !c.hasExternalToString && (IsListContainer(c) || IsMap(c)) && c.hasToStringMethod
  {
    var p := o => Enabled(o, c);
    if !c.hasExternalToString && (IsListContainer(c) || IsMap(c)) && c.hasToStringMethod {
      var a := if IsMap(c) then MapJoin else ListJoin;
      assert a != MethodOnValue && p(a) && p(MethodOnValue);
    }
  }

  // ---------------------------------------------------------------------
  // What str produces, class by class

  /** str on a std::string returns it unchanged, although std::string also
      passes the list-container test: the identity overload keeps the list
      formatter away from it. */
  lemma StrOfStdString(v: Value)
    ensures Enabled(ListJoin, StdString)
    ensures Str(StdString, v) == v.text
  {
  }

  /** A list-like container with no to_string of its own is formatted by
      the list formatter. */
  lemma StrOfListContainer(c: Caps, v: Value)
    requires WellFormed(c) && IsListContainer(c) && !c.isStdString
    requires !c.hasToStringMethod && !c.hasExternalToString
    ensures Str(c, v) == ListText(v.elements)
  {
    assert OnlyEnabled(ListJoin, c);
  }

  /** A map-like container with no to_string of its own is formatted by the
      map formatter. */
  lemma StrOfMap(c: Caps, v: Value)
    requires WellFormed(c) && IsMap(c)
    requires !c.hasToStringMethod && !c.hasExternalToString
    ensures Str(c, v) == MapText(v.entries)
  {
    assert OnlyEnabled(MapJoin, c);
  }

  /** A non-container class with a to_string member: str calls it. */
  lemma StrOfDescribed(c: Caps, v: Value)
    requires WellFormed(c) && !IsPointer(c) && c.hasToStringMethod
    requires !IsListContainer(c) && !IsMap(c) && !c.hasExternalToString
    ensures Str(c, v) == v.ownToString
  {
    assert OnlyEnabled(MethodOnValue, c);
  }

  /** A pointer to a class with a to_string member: str dereferences once
      and calls the target's to_string. */
  lemma StrOfPointerToDescribed(c: Caps, v: Value)
    requires WellFormed(c) && IsPointer(c) && c.pointee.value.hasToStringMethod
    requires !c.hasExternalToString && v.target.Some?
    ensures Str(c, v) == v.target.value.ownToString
  {
    assert Enabled(MethodOnPointee, c);
    assert forall o :: Enabled(o, c) ==> o == MethodOnPointee;
    assert OnlyEnabled(MethodOnPointee, c);
  }

  /** A pointer to a pointer is not walked: only one level is dereferenced,
      and a pointer type has no to_string member. */
  lemma StrOfPointerToPointer(c: Caps, v: Value)
    requires WellFormed(c) && IsPointer(c) && IsPointer(c.pointee.value)
    requires !c.hasExternalToString
    ensures StrategyOf(c) == Sentinel
    ensures Str(c, v) == NoToStringMessage
  {
    assert forall o :: !Enabled(o, c);
  }

  /** A type with neither a container shape nor any to_string gets the sentinel. */
  lemma StrOfUnsupported(c: Caps, v: Value)
    requires !c.isStdString && !c.hasExternalToString
    requires !IsListContainer(c) && !IsMap(c) && !c.hasToStringMethod
    requires IsPointer(c) ==> !c.pointee.value.hasToStringMethod
    ensures Str(c, v) == NoToStringMessage
  {
    assert forall o :: !Enabled(o, c);
  }

  /** A fundamental type such as int gets the sentinel: none of the header's
      templates is enabled for it and no to_string outside the header is
      found for it. */
  lemma StrOfFundamental(v: Value)
    ensures WellFormed(Fundamental)
    ensures Str(Fundamental, v) == NoToStringMessage
  {
  }

  /** A to_string outside the header, found by argument-dependent lookup,
      is chosen whatever the header's templates say: it wins over a
      to_string member and over an otherwise ambiguous container. */
  lemma StrOfExternal(c: Caps, v: Value)
    requires !c.isStdString && c.hasExternalToString
    ensures ResolveFor(c) == ChosenExternal
    ensures Str(c, v) == v.externalToString
  {
  }

  /** std::true_type is rendered by std::to_string(int), not the sentinel. */
  lemma StrOfStdTrueType(v: Value)
    ensures WellFormed(StdTrueType)
    ensures Str(StdTrueType, v) == v.externalToString
  {
  }

  /** A container with a to_string member makes the probe ambiguous, so str
      answers with the sentinel. */
  lemma StrOfAmbiguous(c: Caps, v: Value)
    requires WellFormed(c) && !c.isStdString && !c.hasExternalToString
    requires (IsListContainer(c) || IsMap(c)) && c.hasToStringMethod
    ensures Str(c, v) == NoToStringMessage
  {
    AmbiguousExactly(c);
  }

  // ---------------------------------------------------------------------
  // The pointer overload as written

  /** As written, the pointer overload is never enabled: it requires a
      to_string member on a pointer type, which has no members. */
  lemma PointerOverloadDeadAsWritten(c: Caps)
    requires WellFormed(c)
    ensures !EnabledAsWritten(MethodOnPointee, c)
  {
  }

  /** A class whose only capability is a to_string member, and a pointer to it. */
  const Widget: Caps := Caps(false, false, false, false, true, false, false, None)
  const WidgetPointer: Caps := Caps(false, false, false, false, false, false, false, Some(Widget))

  /** For a pointer to such a class the written header answers with the
      sentinel, while the intended behaviour is the target's own text. */
  lemma WidgetPointerAsWritten(v: Value)
    requires v.target.Some?
    ensures WellFormed(WidgetPointer)
    ensures StrAsWritten(WidgetPointer, v) == NoToStringMessage
    ensures Str(WidgetPointer, v) == v.target.value.ownToString
  {
    assert forall o :: !EnabledAsWritten(o, WidgetPointer);
    assert OnlyEnabled(MethodOnPointee, WidgetPointer);
  }
}

=== FILE: joins.dfy ===
/** Joining already-rendered pieces of text with a separator, and where each
    piece lands in the joined text. Both container formatters of the header
    are a join of this kind wrapped in a pair of brackets. */
module Joins {

  /** The parts in order with `sep` between each consecutive pair: no parts
      join to "", one part joins to itself. */
  function Join(parts: seq<string>, sep: string): string
  {
    if |parts| == 0 then ""
    else if |parts| == 1 then parts[0]
    else parts[0] + sep + Join(parts[1..], sep)
  }

  /** Sum of the lengths of the parts (defined from the right, so that it
      grows one part at a time along a prefix). */
  function TotalLength(parts: seq<string>): nat
  {
    if |parts| == 0 then 0
    else TotalLength(parts[..|parts| - 1]) + |parts[|parts| - 1]|
  }

  /** How many separators a join of n parts holds: max(n - 1, 0). */
  function SeparatorCount(n: nat): nat
  {
    if n == 0 then 0 else n - 1
  }

  /** Position at which part i starts in Join(parts, sep). */
  function Offset(parts: seq<string>, sep: string, i: nat): nat
    requires i <= |parts|
  {
    TotalLength(parts[..i]) + i * |sep|
  }

  /** Appending one part to a non-empty join adds one separator and the part. */
  lemma {:induction false} JoinSnoc(parts: seq<string>, p: string, sep: string)
    requires |parts| >= 1
    ensures Join(parts + [p], sep) == Join(parts, sep) + sep + p
    decreases |parts|
  {
    if |parts| == 1 {
      assert (parts + [p])[1..] == [p];
    } else {
      assert (parts + [p])[1..] == parts[1..] + [p];
      JoinSnoc(parts[1..], p, sep);
    }
  }

  /** A join is made of its parts and exactly max(n - 1, 0) separators. */
  lemma {:induction false} JoinLength(parts: seq<string>, sep: string)
    ensures |Join(parts, sep)| == TotalLength(parts) + SeparatorCount(|parts|) * |sep|
    decreases |parts|
  {
    var n := |parts|;
    if n == 1 {
      assert parts[..0] == [];
    } else if n >= 2 {
      var q := parts[..n - 1];
      assert parts == q + [parts[n - 1]];
      JoinSnoc(q, parts[n - 1], sep);
      JoinLength(q, sep);
      SeparatorsStep(n - 2, |sep|);
    }
  }

  /** The next part starts one part and one separator further on. */
  lemma OffsetNext(parts: seq<string>, sep: string, i: nat)
    requires i < |parts|
    ensures Offset(parts, sep, i + 1) == Offset(parts, sep, i) + |parts[i]| + |sep|
  {
    assert parts[..i + 1][..i] == parts[..i];
  }

  /** Offsets only depend on the parts before them. */
  lemma OffsetOfPrefix(parts: seq<string>, sep: string, k: nat, i: nat)
    requires i <= k <= |parts|
    ensures Offset(parts[..k], sep, i) == Offset(parts, sep, i)
  {
    assert parts[..k][..i] == parts[..i];
  }

  /** One more separator adds its length once. */
  lemma SeparatorsStep(k: nat, w: nat)
    ensures (k + 1) * w == k * w + w
  {
  }

  /** The last part comes after the join of the others and a separator. */
  lemma JoinLastPart(parts: seq<string>, sep: string)
    requires |parts| >= 2
    ensures Join(parts, sep) == Join(parts[..|parts| - 1], sep) + sep + parts[|parts| - 1]
    ensures Offset(parts, sep, |parts| - 1) == |Join(parts[..|parts| - 1], sep)| + |sep|
  {
    var n := |parts|;
    var q := parts[..n - 1];
    assert parts == q + [parts[n - 1]];
    JoinSnoc(q, parts[n - 1], sep);
    JoinLength(q, sep);
    SeparatorsStep(n - 2, |sep|);
  }

  /** Part i of a join starts at Offset(parts, sep, i) and is followed by a
      separator, except the last part, which ends the join. So the join is
      tiled, in order, by the n parts and n - 1 separators. */
  lemma {:induction false} JoinPartAt(parts: seq<string>, sep: string, i: nat)
    requires i < |parts|
    ensures var o := Offset(parts, sep, i);
            && o + |parts[i]| <= |Join(parts, sep)|
            && Join(parts, sep)[o..o + |parts[i]|] == parts[i]
    ensures var e := Offset(parts, sep, i) + |parts[i]|;
            i + 1 < |parts| ==> e + |sep| <= |Join(parts, sep)| && Join(parts, sep)[e..e + |sep|] == sep
    ensures i + 1 == |parts| ==> Offset(parts, sep, i) + |parts[i]| == |Join(parts, sep)|
    decreases |parts|
  {
    var n := |parts|;
    if n == 1 {
      assert parts[..0] == [];
    } else {
      var q := parts[..n - 1];
      JoinLastPart(parts, sep);
      var j := Join(parts, sep);
      var jq := Join(q, sep);
      if i == n - 1 {
        assert j[|jq| + |sep|..] == parts[n - 1];
      } else {
        JoinPartAt(q, sep, i);
        OffsetOfPrefix(parts, sep, n - 1, i);
        var o := Offset(q, sep, i);
        var e := o + |parts[i]|;
        assert j[o..e] == jq[o..e];
        if i + 1 < n - 1 {
          assert j[e..e + |sep|] == jq[e..e + |sep|];
        } else {
          assert j[e..e + |sep|] == sep;
        }
      }
    }
  }
}

=== FILE: traits.dfy ===
/** The compile-time probes of the header, as an explicit capability record,
    and the two container classifications built from them. */
module Traits {
  import opened Wrappers

  /** What the detection aliases find on a type T. */
  datatype Caps = Caps(
    hasCbegin: bool,              // &T::cbegin names a member
    hasCend: bool,                // &T::cend names a member
    hasKeyType: bool,             // T::key_type names a type
    hasMappedType: bool,          // T::mapped_type names a type
    hasToStringMethod: bool,      // &T::to_string names a member
    isStdString: bool,            // T is std::string
    hasExternalToString: bool,    // argument-dependent lookup finds a viable non-template to_string
                                  // in one of T's associated namespaces (it may take T only through
                                  // a conversion); never so for a fundamental type, which has none
    pointee: Option<Caps>)        // Some(U) when T is the pointer type U*

  predicate IsPointer(c: Caps)
  {
    c.pointee.Some?
  }

  /** The capabilities of std::string: it iterates, but has no key or mapped
      type, no to_string member and no viable to_string outside the header. */
  const StdString: Caps := Caps(true, true, false, false, false, true, false, None)

  /** A fundamental type such as int: no members, not a pointer, and no
      associated namespace, so no to_string outside the header is found for
      it. (Ordinary lookup from inside the header stops at the header's own
      to_string templates, so it never reaches std::to_string.) */
  const Fundamental: Caps := Caps(false, false, false, false, false, false, false, None)

  /** std::true_type: no members the probes look for, but it lives in
      namespace std, so argument-dependent lookup finds std::to_string, and
      its conversion to bool, promoted to int, makes std::to_string(int)
      viable. */
  const StdTrueType: Caps := Caps(false, false, false, false, false, false, true, None)

  /** Rules of the language that tie the probes together: a qualified name
      `T::x` is a substitution failure when T is a pointer type, so a pointer
      type exposes no member and no member type. */
  predicate WellFormed(c: Caps)
  {
    && (IsPointer(c) ==>
          !c.hasCbegin && !c.hasCend && !c.hasKeyType && !c.hasMappedType && !c.hasToStringMethod
          && WellFormed(c.pointee.value))
    && (c.isStdString ==> c == StdString)
  }

  /** is_map_v: both a key_type and a mapped_type are present. */
  predicate IsMap(c: Caps)
  {
    c.hasKeyType && c.hasMappedType
  }

  /** is_list_container_v: cbegin and cend are present and the type is not a map. */
  predicate IsListContainer(c: Caps)
  {
    c.hasCbegin && c.hasCend && !IsMap(c)
  }

  /** No type is classified both as a list and as a map. */
  lemma ListAndMapExclusive(c: Caps)
    ensures !(IsListContainer(c) && IsMap(c))
  {
  }

  /** std::string itself passes the list-container test. */
  lemma StdStringIsListContainer()
    ensures IsListContainer(StdString) && !IsMap(StdString) && WellFormed(StdString)
  {
  }
}

=== FILE: wrappers.dfy ===
/** Optional values. */
module Wrappers {

  datatype Option<+T> = None | Some(value: T)
}
